=== FILE: README.md ===
# JSONformer core in Dafny

JSONformer turns a DynamoDB-style tagged text into a typed value tree. In
that text every field reads `"name": { "TAG": content }`, with the tags
`N`, `S`, `BOOL`, `NULL`, `L` and `M`. This project models the engine in
`main.go` that does the work:

- the whitespace seekers `SeekNextToken` and `SeekNextTargetedToken`;
- the quoted-string extractor `RetrieveString`;
- the bracket-span extractor `RetrieveBetweenBrackets`;
- the comma splitter `SplitObjects`;
- the number coercion `strToNum` and the date test `isRFC3339`;
- the recursive tag interpreter `ProcessNextObject`.

Runes are `seq<char>` and records are `map<string, Value>`. Every Go
function becomes a pure Dafny function. The record that `ProcessNextObject`
mutates in place is returned instead.

Modules, in dependency order:

- `Results`: `Option` and `Outcome`. `Outcome.OutOfRange` is the runtime
  panic of a slice past the end of the runes. The interpreter propagates it
  the way a Go panic unwinds the call.
- `Runes`: Go's `unicode.IsSpace`, and `strings.TrimSpace` and
  `strings.TrimLeft(·, "0")`. `TrimLeft`'s contract says it removes
  exactly the longest prefix of the class; `TrimSpace` is characterised
  independently of how it scans (`TrimSpaceUnique`).
- `Lexer`: the reference reading that the scanners share. `Escaped` says
  which runes a backslash skips. `Lex` is a left-to-right fold giving the
  bracket depth and the quote flag after each prefix.
- `Scanner`: the cursor scanners, proved against `Lexer`.
- `Splitter`: `SplitObjects`, proved against the set of separating commas.
  Joining its fragments with commas gives back the input.
- `Values`: the value tree, and the record invariant the interpreter keeps.
- `Coerce`: the decision table of `strToNum`, the `S` date rule and the
  boolean token sets. The library calls (`strconv.ParseFloat`,
  `strconv.ParseInt`, float-to-int equality and `time.Parse`) are fields of
  a `Library` value, so every result holds for any parser behaviour, except
  `AllZerosIsNoNumber`, which assumes both parsers reject the empty string.
- `Interpreter`: `ProcessNextObject` and its `L` and `M` branches, which
  recurse through the nested bracket spans.

## Surprising behaviours of the code

The model keeps each of these behaviours of `main.go`:

- `RetrieveString` succeeds on a string with no closing quote, and the
  interior is then the rest of the input (main.go:310-317,
  `Scanner.UnterminatedStringSucceeds`).
- An RFC 3339 date-time before 1970 stays a string, because `isRFC3339`
  returns its negative Unix seconds and the caller reads any negative result
  as failure (main.go:144-148, 290-297, `Coerce.PreEpochStaysText`).
- `SplitObjects` splits at a depth-zero comma even between quotes; the quote
  flag only shields braces (main.go:381-386, `Splitter.CommaSplitsIff`).
- `RetrieveBetweenBrackets` has a strict mode that rejects a nested opening
  bracket, but no caller passes `duplicatesAllowed`, so it is never used
  (main.go:99, 174, 184, 256). The model keeps it as the `strict` parameter.
- A list element tagged `N` is read from one rune past the colon
  (main.go:200, `Interpreter.ListNumberNeedsSpace`).
- A `BOOL` or `NULL` list element without a content string `return`s from the
  whole field, so the list is not stored; an `S` or `N` element without one is
  only skipped (main.go:201-202, 213-214, 229-230, 241-242,
  `Interpreter.ElementItem`).
- A string with no closing quote that ends in an unpaired backslash, and a
  split span that ends in one, make the Go code slice past the end of the
  runes (main.go:317, 391). The model returns `OutOfRange` there.

## Model

| member | source | states |
|---|---|---|
| Scanner.SeekNextToken | main.go:65-70 | The result lies between the index and the end, every skipped rune is white space, and the rune at the result is not. A start past the end is returned unchanged. |
| Scanner.SeekNextTargetedToken | main.go:73-78 | Consumes nothing beyond `SeekNextToken`. It reports found exactly when the position is inside the runes and holds the target. |
| Scanner.RetrieveString | main.go:300-318 | Misses exactly when no quote follows the white space. On a hit, the interior runs from just after that quote to the first quote no backslash skips, and the next index is one past it. Without a closing quote, the interior is the rest of the input. It panics exactly when the opening quote has no closing quote and an unpaired backslash ends the input. |
| Scanner.StringEnd | main.go:310-315 | The loop stops at the first quote that no backslash skips. With none, it stops at the end, or one past it when an unpaired backslash ends the input. |
| Scanner.EscapedQuoteNeverCloses | main.go:310-315 | A quote right after a reached backslash is never where an extracted string ends. |
| Scanner.UnterminatedStringSucceeds | main.go:310-317 | `"ab` without a closing quote is still a hit, with interior `ab` and a next index past the end. |
| Scanner.MatchBracket | main.go:335-355 | The bracket loop stops on a closing bracket that no backslash skips, or runs off the end while every prefix is still open, or, in strict mode only, stops on a nested opening bracket of a span that cannot balance flat. |
| Scanner.MatchBracketCloses | main.go:330-355 | Where the bracket loop stops on a closing bracket, that bracket is the first to bring the depth back to zero. In strict mode the depth never exceeded one on the way. |
| Scanner.RetrieveBetweenBrackets | main.go:321-361 | Hits exactly when the opening bracket follows the white space and some prefix brings the reference depth back to zero (flat in strict mode). On a hit, the rune before the next index is the closing bracket, no backslash skips it, and the interior is exactly the runes between the two brackets. It never panics. |
| Lexer.ShieldedBracketKeepsDepth | main.go:335-353 | A bracket skipped by a backslash, or inside a quote-toggled run, leaves the depth unchanged. |
| Lexer.LexSkipsEscape | main.go:337-338 | A reached backslash and the rune after it leave the nesting unchanged, and the rune after the pair is reached again. |
| Lexer.LexSteps | main.go:339-353 | Any other reached rune changes the nesting exactly as the bracket and quote cases of the `switch` do. |
| Lexer.Step | main.go:339-353 | The depth moves by one exactly on an unquoted bracket: down on the closing one, up on the opening one. A quoted run leaves it fixed, and only a quote flips the flag. |
| Lexer.EscapedInSlice | main.go:337-338 | Which runes a backslash skips depends only on the text from the scan's start, so a span cut out of the input skips the same runes. |
| Splitter.SplitPointsAre | main.go:383-386 | The cut points are exactly the commas that no backslash skips and that sit at brace depth zero. |
| Splitter.SplitLoop | main.go:369-391 | The loop yields the cut of the text at the separating commas from the cursor on. It panics exactly when an unpaired backslash ends the span. |
| Splitter.SplitObjects | main.go:363-393 | Panics exactly when the start is past the end or the span ends in an unpaired backslash. Otherwise it returns the cut of `s[start..]` at the separating commas. |
| Splitter.SplitObjectsRejoins | main.go:363-392 | Joining the fragments with `,` reproduces `s[start..]`. There is one more fragment than separating commas. |
| Splitter.CommaSplitsIff | main.go:381-386 | An unskipped comma separates exactly when the brace depth before it is zero, whether or not it lies between quotes. |
| Splitter.SplitEmpty | main.go:363-392 | The empty span gives one empty fragment. |
| Runes.IsSpace | main.go:66 | Among the first 256 code points, white space is exactly tab, line feed, vertical tab, form feed, carriage return, space, U+0085 and U+00A0. |
| Runes.TrimSpace | main.go:123 | The result is no longer than the text and neither begins nor ends with white space. |
| Runes.TrimLeft | main.go:272 | The result is a suffix of the text, every removed rune is in the class, and the result does not begin with one. |
| Runes.SkipForward | main.go:272 | The forward scan of the trims: only runes of the class are passed over, and it stops at the first rune outside it. |
| Runes.SkipBackward | main.go:123 | The backward scan of `strings.TrimSpace`: only runes of the class are passed over, and it stops just after the last rune outside it, or at the lower bound. |
| Runes.TrimSpaceUnique | main.go:123 | Any text that neither begins nor ends with white space is what trimming returns, whatever white space surrounds it. |
| Runes.TrimSpaceIdempotent | main.go:205 | Trimming twice is trimming once. |
| Coerce.TrimBeforeIsHarmless | main.go:205-207 | The list branch's extra trim before `strToNum` does not change the result. |
| Coerce.StrToNum | main.go:271-287 | Gives nil exactly when both parsers fail. It gives an int exactly when the int parse succeeds and the float parse fails or agrees with it. It gives the float otherwise. The parsers see the text trimmed and stripped of leading zeros. |
| Coerce.AllZerosIsNoNumber | main.go:272-276 | A text that trims to zeros only, such as `"0"`, yields nil when the parsers reject the empty string. |
| Coerce.PaddingIsIgnored | main.go:272 | White space and then zeros in front of a number text do not change the result. |
| Coerce.IsRFC3339 | main.go:290-297 | Non-negative exactly for a parse that succeeds at or after the epoch, and then equal to the Unix seconds. A negative result is either a failed parse or a date before 1970. |
| Coerce.TextValue | main.go:144-148 | The value is the Unix seconds exactly when the text parses as a date-time at or after the epoch. Otherwise it is the text unchanged. |
| Coerce.PreEpochStaysText | main.go:144-148 | A date-time before 1970 is stored as a string. |
| Coerce.BoolToken | main.go:156-161 | `true` exactly for the six true spellings and `false` exactly for the six false ones. Any other token gives nothing. |
| Interpreter.TagOf | main.go:123-124 | Each tag is recognised exactly when the trimmed tag text is its name. |
| Interpreter.TextField | main.go:134-149 | An `S` content stores nothing exactly when it trims to empty. Otherwise it stores what the date rule makes of the trimmed text: its Unix seconds when it parses at or after the epoch, the text itself otherwise. |
| Interpreter.BoolField | main.go:150-161 | A `BOOL` content stores `true` or `false` exactly for the listed tokens, and nothing otherwise. |
| Interpreter.NullField | main.go:162-171 | A `NULL` content stores `nil` exactly for a true token. A false token stores nothing. |
| Interpreter.ScalarValue | main.go:123-171 | `N` content goes through `strToNum`, `S` through the text and date rule, `BOOL` and `NULL` through their token sets. Whatever a scalar tag decodes to is a scalar, never a list or a map. |
| Interpreter.ReadHeader | main.go:83-87 | A missing name quote writes nothing, and a panic in the name propagates. After a name, the wrapper stage decides. A header that is read has the name string as its name, non-empty, and a body strictly shorter than the fragment. |
| Interpreter.ReadWrapper | main.go:89-93 | A missing colon after the name writes nothing. Otherwise the wrapper stage starts just past the colon. |
| Interpreter.ReadBrace | main.go:94-106 | A missing `{`, an unbalanced wrapper or an empty name each write nothing. Otherwise the tag stage reads the wrapper's interior. |
| Interpreter.ReadTag | main.go:108-121 | A missing tag quote, a tag without a closing quote or a missing colon after the tag each write nothing, and a panic in the tag propagates. A tag followed by its colon is always read: the header holds the name, the tag string and the body, with the content index just past that colon. |
| Interpreter.StoreField | main.go:123-268 | A panic in the field propagates, and a field that decodes to nothing leaves the record unchanged. Otherwise the decoded value is stored under the field's name, nothing else changes, and the record invariant is kept. |
| Interpreter.ProcessNextObject | main.go:81-269 | A panic propagates, and a header that cannot be read leaves the record unchanged. A header that is read leads to the store step. Otherwise at most the key `name` changes, and every other key keeps its value. A record whose names are non-empty and whose lists are non-empty and scalar stays so. |
| Interpreter.FieldValue | main.go:123-267 | An unknown tag stores nothing, and neither does a scalar tag without a content string; a panic in the content propagates. An `L` field stores nothing when its list decodes to nothing or to no values, propagates a panic in it, and stores the list otherwise. An `M` field stores the nested record its brace span decodes to, and nothing when the span does not match. Any stored value keeps the record invariant. A list or a map comes only from `L` or `M`. `M` stores exactly when its brace span matches. |
| Interpreter.DecodeMap | main.go:254-266 | A missing or unbalanced brace span gives nothing. Otherwise, unless a fragment panics, the result is a record, even an empty one, and it satisfies the invariant. That record is what processing the split fragments in turn leaves in a fresh record. |
| Interpreter.ProcessAll | main.go:263-265 | Processing the fragments in turn never removes a key, adds only names that the fragments' headers read, and keeps the invariant. |
| Interpreter.ProcessAllAppend | main.go:263-265 | Processing one more fragment is processing the others, then that one on the record they leave, so a later fragment writing a name overrides an earlier one. |
| Interpreter.ReadItem | main.go:184-187 | An element without a matching brace span is skipped. Otherwise the tag stage reads the span's interior, and a header that is read has that interior as body. |
| Interpreter.ItemTag | main.go:188-196 | An element body without a leading tag string or without a colon after the tag is skipped, and a panic in the tag propagates. A tag followed by its colon is always read: the header holds the tag string and the body, with the content index just past that colon. |
| Interpreter.ElementItem | main.go:197-249 | Only scalar tags contribute, and what they contribute is a scalar. `L` and `M` elements are skipped. An element aborts the list exactly when it is `BOOL` or `NULL` without a content string; an `S` or `N` element without one is skipped, and a panic in the content propagates. An `N` element is read one rune past the colon, and trimmed before conversion. An `S`, `BOOL` or `NULL` element with a content string contributes what that content decodes to as a field, or nothing. |
| Interpreter.DecodeItem | main.go:182-196 | An element whose header cannot be read is skipped, and a panic in it propagates. An element whose header is read contributes what its tag and content give. |
| Interpreter.Kept | main.go:207-247 | The values appended, in element order, are no more than the elements, and all are scalars. |
| Interpreter.Gather | main.go:180-250 | The element loop yields the kept values in order exactly when no element panics or aborts. A failed loop always has an aborting element. |
| Interpreter.DecodeList | main.go:173-250 | A missing or unbalanced `[]` span gives nothing. Otherwise the element loop over the split span decides. A decoded list holds only scalars. |
| Interpreter.GatherStopsAtAbort | main.go:200-247 | An aborting element after only clean ones ends the element loop with nothing, whatever follows it. |
| Interpreter.AbortedListWritesNothing | main.go:180-253 | A list field in which a `BOOL` or `NULL` element aborts after only clean elements leaves the record unchanged. |
| Interpreter.BracketInteriorSplits | main.go:256-262 | Splitting the interior of a matched bracket span never panics. |
| Interpreter.UnknownTagWritesNothing | main.go:123-267 | A field whose tag is none of the six leaves the record unchanged. |
| Interpreter.ScalarFieldStores | main.go:124-171 | A scalar field with a content string stores exactly its decoded scalar under the name. When the content does not decode, the record is unchanged. |
| Interpreter.ListFieldStores | main.go:172-253 | A list whose elements neither panic nor abort, and that keeps at least one value, is stored under the name as those values in element order. |
| Interpreter.MapFieldAlwaysStores | main.go:254-266 | An `M` field with matching braces always stores under the name the record that processing its split fragments builds, even an empty one. |
| Interpreter.ListNumberNeedsSpace | main.go:200 | `"N":"5"` as a list element is dropped, while `"N": "5"` as an element, and `"N":"5"` as a field, both decode the number. |
| Values.StoreKeepsWellFormed | main.go:132 | Storing a well-formed value under a non-empty name keeps a record well formed. |

## Left out

- `ParseFileToJSON` and `main` (main.go:14-62, 395-402): file I/O, line scanning, JSON marshalling and printing. Their record loop also always rescans from offset 0, so it does not terminate on multi-record input.
- `strconv.ParseFloat`, `strconv.ParseInt`, the test `floatNumber == float64(intNumber)` and `time.Parse(time.RFC3339, …)` are not modelled. They are the fields of `Coerce.Library`, and no floating-point arithmetic is done.
- `fmt.Println` diagnostics in `RetrieveBetweenBrackets`: side effects only.
- Go map iteration order and JSON key order: records are Dafny maps.
- The `required` parameter of `SeekNextTargetedToken`: it is never read.
- The `index` parameter of `ProcessNextObject` (main.go:81): every caller passes 0 (main.go:48, 264), so the model always reads the fragment from its start.
- Scanner.RetrieveString: a Go slice may extend up to the capacity of its backing array, so a sub-slice taken from a larger buffer does not always panic one rune past its length. The model treats every such read as a panic (`OutOfRange`).
- Splitter.SplitObjects: its final slice past the end is likewise always modelled as a panic, whatever the capacity of the backing array.
- Interpreter.ProcessNextObject: a panic is modelled as an `OutOfRange` result. Go would unwind the whole program, including any fields already stored by the caller.

=== FILE: coerce.dfy ===
/** Scalar coercion (main.go:271-297): number text to `int64` or `float64`,
    date-shaped text to Unix seconds, and the boolean token sets. The Go
    library parsers are not modelled; they are the fields of a `Library`. */
module Coerce {
  import opened Results
  import opened Runes
  import opened Values

  /** The library calls the coercions make, as opaque functions:
      `strconv.ParseFloat(t, 64)`, `strconv.ParseInt(t, 0, 64)`, the test
      `f == float64(i)`, and `time.Parse(time.RFC3339, t)` followed by
      `Unix()`. `None` stands for a non-nil error. */
  datatype Library = Library(
    parseFloat: string -> Option<Float64>,
    parseInt: string -> Option<Int64>,
    sameNumber: (Float64, Int64) -> bool,
    parseTime: string -> Option<Int64>)

  /** Both Go number parsers report an error on the empty string. */
  predicate RejectsEmpty(lib: Library) {
    lib.parseFloat([]).None? && lib.parseInt([]).None?
  }

  /** The text `strToNum` hands to both parsers: white space trimmed, then
      every leading `'0'` removed. */
  function NumberText(str: string): string {
    TrimLeft(TrimSpace(str), Zeros)
  }

  /** `strToNum`: `None` (Go `nil`) when neither parser accepts the text,
      the integer when only `ParseInt` does or when both do and agree, the
      float otherwise. */
  function StrToNum(lib: Library, str: string): (r: Option<Value>)
    ensures var t := NumberText(str);
      var f := lib.parseFloat(t);
      var n := lib.parseInt(t);
      && (r.None? <==> f.None? && n.None?)
      && (r.Some? ==> r.value.Int? || r.value.Float?)
      && (r.Some? && r.value.Int? <==> n.Some? && (f.None? || lib.sameNumber(f.value, n.value)))
      && (r.Some? && r.value.Int? ==> n == Some(r.value.i))
      && (r.Some? && r.value.Float? ==> f == Some(r.value.f))
  {
    Decide(lib.parseFloat(NumberText(str)), lib.parseInt(NumberText(str)), lib.sameNumber)
  }

  /** The decision table of `strToNum` over the two parse results. */
  function Decide(f: Option<Float64>, n: Option<Int64>, same: (Float64, Int64) -> bool): Option<Value> {
    if f.None? && n.None? then None
    else if f.Some? && n.None? then Some(Float(f.value))
    else if f.None? && n.Some? then Some(Int(n.value))
    else if same(f.value, n.value) then Some(Int(n.value))
    else Some(Float(f.value))
  }

  /** Leading runes of a class `p` in front of a text vanish under
      `TrimLeft` with that class. */
  lemma TrimLeftAbsorbs(z: seq<char>, u: seq<char>, p: Cutset)
    requires All(z, p)
    ensures TrimLeft(z + u, p) == TrimLeft(u, p)
  {
    var n := SkipForward(u, p, 0);
    var s := z + u;
    forall k | 0 <= k < |z| + n
      ensures p.Has(s[k])
    {
      if k >= |z| { assert s[k] == u[k - |z|]; }
    }
    if |z| + n < |s| { assert s[|z| + n] == u[n]; }
    SkipForwardStops(s, p, 0, |z| + n);
    assert s[|z| + n..] == u[n..];
  }

  /** A text made only of zeros, such as `"0"` or `" 000 "`, is no number:
      stripping the zeros leaves the empty string, which both parsers
      reject. */
  lemma AllZerosIsNoNumber(lib: Library, str: string)
    requires RejectsEmpty(lib)
    requires All(TrimSpace(str), Zeros)
    ensures StrToNum(lib, str) == None
  {
    var t := TrimSpace(str);
    SkipForwardStops(t, Zeros, 0, |t|);
    assert NumberText(str) == [];
  }

  /** White space and then zeros in front of a number text that starts
      with neither change nothing: `" 007"` reads as `"7"`. */
  lemma PaddingIsIgnored(lib: Library, w: string, z: string, str: string)
    requires All(w, Spaces) && All(z, Zeros)
    requires str == [] || !IsSpace(str[0])
    ensures StrToNum(lib, w + z + str) == StrToNum(lib, str)
  {
    NumberTextPadding(w, z, str);
    SameNumberText(lib, w + z + str, str);
  }

  /** `strToNum` sees its argument only through `NumberText`. */
  lemma SameNumberText(lib: Library, a: string, b: string)
    requires NumberText(a) == NumberText(b)
    ensures StrToNum(lib, a) == StrToNum(lib, b)
  {
  }

  lemma NumberTextPadding(w: string, z: string, str: string)
    requires All(w, Spaces) && All(z, Zeros)
    requires str == [] || !IsSpace(str[0])
    ensures NumberText(w + z + str) == NumberText(str)
  {
    var u := TrimSpace(str);
    var w2 := TrimmedTail(str);
    assert w + z + str == w + (z + u) + w2;
    ZerosBordered(z, u);
    TrimSpaceUnique(w, z + u, w2);
    TrimLeftAbsorbs(z, u, Zeros);
  }

  /** Zeros in front of a trimmed text leave it trimmed. */
  lemma ZerosBordered(z: string, u: string)
    requires All(z, Zeros) && Bordered(u, Spaces)
    ensures Bordered(z + u, Spaces)
  {
    if z != [] { assert (z + u)[0] == z[0]; }
    if u != [] { assert (z + u)[|z + u| - 1] == u[|u| - 1]; }
    else { assert z + u == z; }
  }

  /** A text that does not start with white space is its trimmed form
      followed by white space. */
  function TrimmedTail(str: string): (w2: string)
    requires str == [] || !IsSpace(str[0])
    ensures All(w2, Spaces) && str == TrimSpace(str) + w2
  {
    TrimSpaceInfix(str);
    assert SkipForward(str, Spaces, 0) == 0;
    var b := SkipBackward(str, Spaces, 0, |str|);
    assert str == str[..b] + str[b..];
    str[b..]
  }

  /** Trimming before the conversion, as the list branch does, changes
      nothing. */
  lemma TrimBeforeIsHarmless(lib: Library, str: string)
    ensures StrToNum(lib, TrimSpace(str)) == StrToNum(lib, str)
  {
    TrimSpaceIdempotent(str);
  }

  /** `isRFC3339`: the Unix seconds of an RFC 3339 date-time, or -1 when
      the text is not one. A date-time before 1970 also yields a negative
      number. */
  function IsRFC3339(lib: Library, t: string): (n: int)
    ensures n >= 0 ==> lib.parseTime(t) == Some(n)
    ensures n < 0 <==> lib.parseTime(t).None? || lib.parseTime(t).value < 0
  {
    match lib.parseTime(t)
    case None => -1
    case Some(u) => u
  }

  /** The value of a non-empty `S` content: the Unix seconds when the text
      is an RFC 3339 date-time at or after the epoch, else the text. */
  function TextValue(lib: Library, t: string): (v: Value)
    ensures v.Str? <==> lib.parseTime(t).None? || lib.parseTime(t).value < 0
    ensures v.Str? ==> v.s == t
    ensures !v.Str? ==> v.Int? && v.i >= 0 && lib.parseTime(t) == Some(v.i)
  {
    var n := IsRFC3339(lib, t);
    if n < 0 then Str(t) else Int(n)
  }

  /** Because -1 is the failure sentinel, a date-time before 1970 stays a
      string. */
  lemma PreEpochStaysText(lib: Library, t: string)
    requires lib.parseTime(t).Some? && lib.parseTime(t).value < 0
    ensures TextValue(lib, t) == Str(t)
  {
  }

  /** The tokens read as `true` by `BOOL` and as present by `NULL`. */
  const Truthy: set<string> := {"1", "t", "T", "TRUE", "true", "True"}

  /** The tokens read as `false` by `BOOL`. */
  const Falsy: set<string> := {"0", "f", "F", "FALSE", "false", "False"}

  /** The `BOOL` token switch; any other token is no boolean. */
  function BoolToken(t: string): (r: Option<bool>)
    ensures r == Some(true) <==> t in Truthy
    ensures r == Some(false) <==> t in Falsy
    ensures r.None? <==> t !in Truthy && t !in Falsy
  {
    if t in Truthy then Some(true)
    else if t in Falsy then Some(false)
    else None
  }
}

=== FILE: interpreter.dfy ===
/** The value interpreter `ProcessNextObject` (main.go:80-269): it reads
    one `"name": { "TAG": content }` fragment and writes the decoded value
    under `name`. Records are immutable here: the function returns the
    record the Go code would leave behind in `backingObject`. */
module Interpreter {
  import opened Results
  import opened Runes
  import opened Lexer
  import opened Scanner
  import opened Splitter
  import opened Values
  import opened Coerce

  /** The type tags the `switch` statements recognise, and `OtherTag` for
      any other text. */
  datatype Tag = NTag | STag | BoolTag | NullTag | ListTag | MapTag | OtherTag {
    /** The tags whose content is one quoted string. */
    predicate IsScalar() { this in {NTag, STag, BoolTag, NullTag} }
  }

  /** The tag named by a tag string, after trimming white space as both
      `switch` statements do. */
  function TagOf(t: string): (g: Tag)
    ensures g == NTag <==> TrimSpace(t) == "N"
    ensures g == STag <==> TrimSpace(t) == "S"
    ensures g == BoolTag <==> TrimSpace(t) == "BOOL"
    ensures g == NullTag <==> TrimSpace(t) == "NULL"
    ensures g == ListTag <==> TrimSpace(t) == "L"
    ensures g == MapTag <==> TrimSpace(t) == "M"
  {
    var u := TrimSpace(t);
    if u == "N" then NTag
    else if u == "S" then STag
    else if u == "BOOL" then BoolTag
    else if u == "NULL" then NullTag
    else if u == "L" then ListTag
    else if u == "M" then MapTag
    else OtherTag
  }

  /** An `S` content (main.go:134-149 and 211-225): the trimmed text, or
      the Unix time it names when it is an RFC 3339 date from 1970 on;
      `None` when only white space is left. */
  function TextField(lib: Library, c: string): (r: Option<Value>)
    ensures r.None? <==> TrimSpace(c) == []
    ensures r.Some? ==> r.value.Str? || r.value.Int?
    ensures r.Some? && r.value.Str? ==> r.value.s == TrimSpace(c)
    ensures r.Some? && r.value.Int? ==>
      r.value.i >= 0 && lib.parseTime(TrimSpace(c)) == Some(r.value.i as int)
    ensures r.Some? ==> r.value == TextValue(lib, TrimSpace(c))
  {
    var t := TrimSpace(c);
    if t == [] then None else Some(TextValue(lib, t))
  }

  /** A `BOOL` content (main.go:150-159 and 226-236): `true` or `false`
      for the accepted spellings, `None` for anything else. */
  function BoolField(c: string): (r: Option<Value>)
    ensures r == Some(Bool(true)) <==> TrimSpace(c) in Truthy
    ensures r == Some(Bool(false)) <==> TrimSpace(c) in Falsy
    ensures r.Some? ==> r.value.Bool?
  {
    match BoolToken(TrimSpace(c))
    case Some(b) => Some(Bool(b))
    case None => None
  }

  /** A `NULL` content (main.go:160-170 and 237-247): `nil` for a true
      spelling; `false` and anything else store nothing. */
  function NullField(c: string): (r: Option<Value>)
    ensures r.Some? <==> TrimSpace(c) in Truthy
    ensures r.Some? ==> r.value == Null
  {
    if TrimSpace(c) in Truthy then Some(Null) else None
  }

  /** The decoding of one content string under a scalar tag, shared by
      fields and list elements. `None` omits the field or skips the
      element. */
  function ScalarValue(lib: Library, tag: Tag, c: string): (r: Option<Value>)
    requires tag.IsScalar()
    ensures r.Some? ==> Scalar(r.value)
    ensures tag == NTag ==> r == StrToNum(lib, c)
    ensures tag == STag ==> r == TextField(lib, c)
    ensures tag == BoolTag ==> r == BoolField(c)
    ensures tag == NullTag ==> r == NullField(c)
  {
    match tag
    case NTag => StrToNum(lib, c)
    case STag => TextField(lib, c)
    case BoolTag => BoolField(c)
    case NullTag => NullField(c)
  }

  // ---------------------------------------------------------------------
  // Fields

  /** The `"name": { "TAG":` prefix of a field fragment: `body` is the
      interior of the tagged wrapper and `at` the index in it just past the
      colon that follows the tag. */
  datatype Header = Header(name: string, tag: string, body: seq<char>, at: nat)

  /** Reads the header of a field (main.go:83-121): the name string, then
      the wrapper and the tag. `None` is one of the early `return`s. */
  function ReadHeader(s: seq<char>): (r: Outcome<Option<Header>>)
    ensures RetrieveString(s, 0).Miss? ==> r == Returned(None)
    ensures RetrieveString(s, 0).OutOfRange? ==> r == Outcome.OutOfRange
    ensures RetrieveString(s, 0).Hit? ==>
      r == ReadWrapper(s, RetrieveString(s, 0).interior, RetrieveString(s, 0).next)
    ensures r.Returned? && r.value.Some? ==>
      && RetrieveString(s, 0).Hit?
      && r.value.value.name == RetrieveString(s, 0).interior
      && r.value.value.name != []
      && r.value.value.at <= |r.value.value.body|
      && |r.value.value.body| + 2 <= |s|
  {
    match RetrieveString(s, 0)
    case OutOfRange => Outcome.OutOfRange
    case Miss => Returned(None)
    case Hit(name, next) => ReadWrapper(s, name, next)
  }

  /** The colon after the name (main.go:89-93); the wrapper follows it. */
  function ReadWrapper(s: seq<char>, name: string, next: nat): (r: Outcome<Option<Header>>)
    ensures !SeekNextTargetedToken(s, next, ':').1 ==> r == Returned(None)
    ensures SeekNextTargetedToken(s, next, ':').1 ==>
      r == ReadBrace(s, name, SeekNextTargetedToken(s, next, ':').0 + 1)
    ensures r.Returned? && r.value.Some? ==>
      && r.value.value.name == name != []
      && r.value.value.at <= |r.value.value.body|
      && |r.value.value.body| + 2 <= |s|
  {
    var colon := SeekNextTargetedToken(s, next, ':');
    if !colon.1 then Returned(None) else ReadBrace(s, name, colon.0 + 1)
  }

  /** The wrapper (main.go:94-106): the opening brace, then its balanced
      span; an empty name is only rejected once the wrapper is found. */
  function ReadBrace(s: seq<char>, name: string, from: nat): (r: Outcome<Option<Header>>)
    ensures !SeekNextTargetedToken(s, from, '{').1 ==> r == Returned(None)
    ensures RetrieveBetweenBrackets(s, SeekNextToken(s, from), Brace, false).Miss? ==> r == Returned(None)
    ensures name == [] ==> r == Returned(None)
    ensures SeekNextTargetedToken(s, from, '{').1 && name != [] ==>
      var wrapper := RetrieveBetweenBrackets(s, SeekNextToken(s, from), Brace, false);
      wrapper.Hit? ==> r == ReadTag(name, wrapper.interior)
    ensures r.Returned? && r.value.Some? ==>
      && r.value.value.name == name != []
      && r.value.value.at <= |r.value.value.body|
      && |r.value.value.body| + 2 <= |s|
  {
    var brace := SeekNextTargetedToken(s, from, '{');
    if !brace.1 then Returned(None)
    else
      var wrapper := RetrieveBetweenBrackets(s, brace.0, Brace, false);
      if !wrapper.Hit? || name == [] then Returned(None)
      else ReadTag(name, wrapper.interior)
  }

  /** The tag inside the wrapper (main.go:108-121): a quote, the tag
      string, then a colon; `at` is the index just past that colon. */
  function ReadTag(name: string, body: seq<char>): (r: Outcome<Option<Header>>)
    ensures var quote := SeekNextTargetedToken(body, 0, '"');
      && (!quote.1 ==> r == Returned(None))
      && (quote.1 && RetrieveString(body, quote.0).OutOfRange? ==> r == Outcome.OutOfRange)
      && (quote.1 && RetrieveString(body, quote.0).Miss? ==> r == Returned(None))
      && (quote.1 && RetrieveString(body, quote.0).Hit? ==>
            var tag := RetrieveString(body, quote.0);
            var colon := SeekNextTargetedToken(body, tag.next, ':');
            r == if colon.1 then Returned(Some(Header(name, tag.interior, body, colon.0 + 1)))
                 else Returned(None))
    ensures r.Returned? && r.value.Some? ==>
      var h := r.value.value;
      var tag := RetrieveString(body, SeekNextToken(body, 0));
      && h.name == name && h.body == body
      && tag.Hit? && h.tag == tag.interior
      && 0 < h.at <= |body|
      && SeekNextTargetedToken(body, tag.next, ':') == (h.at - 1, true)
  {
    var quote := SeekNextTargetedToken(body, 0, '"');
    if !quote.1 then Returned(None)
    else
      match RetrieveString(body, quote.0)
      case OutOfRange => Outcome.OutOfRange
      case Miss => Returned(None)
      case Hit(tag, after) =>
        var colon := SeekNextTargetedToken(body, after, ':');
        if !colon.1 then Returned(None)
        else Returned(Some(Header(name, tag, body, colon.0 + 1)))
  }

  /** `ProcessNextObject`: the record after processing one field fragment.
      At most the key `name` changes, and the record invariant is kept. */
  function ProcessNextObject(lib: Library, s: seq<char>, rec: Record): (r: Outcome<Record>)
    ensures ReadHeader(s) == Outcome.OutOfRange ==> r == Outcome.OutOfRange
    ensures ReadHeader(s) == Returned(None) ==> r == Returned(rec)
    ensures r.Returned? && r.value != rec ==>
      && ReadHeader(s).Returned? && ReadHeader(s).value.Some?
      && var name := ReadHeader(s).value.value.name;
      && name != [] && name in r.value
      && r.value == rec[name := r.value[name]]
    ensures ReadHeader(s).Returned? && ReadHeader(s).value.Some? ==>
      r == StoreField(lib, ReadHeader(s).value.value, rec)
    ensures r.Returned? && WellFormedRecord(rec) ==> WellFormedRecord(r.value)
    decreases |s|, 0
  {
    match ReadHeader(s)
    case OutOfRange => Outcome.OutOfRange
    case Returned(None) => Returned(rec)
    case Returned(Some(h)) => StoreField(lib, h, rec)
  }

  /** The last step of `ProcessNextObject` (main.go:123-268): the decoded
      value, if any, stored under the field's name. */
  function StoreField(lib: Library, h: Header, rec: Record): (r: Outcome<Record>)
    requires h.name != [] && h.at <= |h.body|
    ensures FieldValue(lib, h) == Outcome.OutOfRange ==> r == Outcome.OutOfRange
    ensures FieldValue(lib, h) == Returned(None) ==> r == Returned(rec)
    ensures FieldValue(lib, h).Returned? && FieldValue(lib, h).value.Some? ==>
      r == Returned(rec[h.name := FieldValue(lib, h).value.value])
    ensures r.Returned? && r.value != rec ==>
      h.name in r.value && r.value == rec[h.name := r.value[h.name]]
    ensures r.Returned? && WellFormedRecord(rec) ==> WellFormedRecord(r.value)
    decreases |h.body|, 3
  {
    match FieldValue(lib, h)
    case OutOfRange => Outcome.OutOfRange
    case Returned(None) => Returned(rec)
    case Returned(Some(v)) =>
      if WellFormedRecord(rec) then StoreKeepsWellFormed(rec, h.name, v); Returned(rec[h.name := v])
      else Returned(rec[h.name := v])
  }

  /** The value a field decodes to under its trimmed tag (main.go:123-267);
      `None` leaves the field out. */
  function FieldValue(lib: Library, h: Header): (r: Outcome<Option<Value>>)
    requires h.at <= |h.body|
    ensures TagOf(h.tag) == OtherTag ==> r == Returned(None)
    ensures TagOf(h.tag).IsScalar() && RetrieveString(h.body, h.at).Miss? ==> r == Returned(None)
    ensures TagOf(h.tag).IsScalar() && RetrieveString(h.body, h.at).OutOfRange? ==> r == Outcome.OutOfRange
    ensures TagOf(h.tag) == ListTag ==>
      var items := DecodeList(lib, TrimSpace(h.body[h.at..]));
      && (items == Outcome.OutOfRange ==> r == Outcome.OutOfRange)
      && (items == Returned(None) ==> r == Returned(None))
      && (items == Returned(Some([])) ==> r == Returned(None))
      && (items.Returned? && items.value.Some? && items.value.value != [] ==>
            r == Returned(Some(List(items.value.value))))
    ensures r.Returned? && r.value.Some? ==> WellFormed(r.value.value)
    ensures r.Returned? && r.value.Some? && !Scalar(r.value.value) ==>
      TagOf(h.tag) == (if r.value.value.List? then ListTag else MapTag)
    ensures TagOf(h.tag) == MapTag && r.Returned? ==>
      (r.value.Some? <==> RetrieveBetweenBrackets(TrimSpace(h.body[h.at..]), 0, Brace, false).Hit?)
    ensures TagOf(h.tag) == MapTag ==>
      r == match DecodeMap(lib, TrimSpace(h.body[h.at..]))
           case OutOfRange => Outcome.OutOfRange
           case Returned(m) => Returned(if m.Some? then Some(Map(m.value)) else None)
    decreases |h.body|, 2
  {
    var tag := TagOf(h.tag);
    if tag.IsScalar() then
      match RetrieveString(h.body, h.at)
      case OutOfRange => Outcome.OutOfRange
      case Miss => Returned(None)
      case Hit(c, _) => Returned(ScalarValue(lib, tag, c))
    else if tag == ListTag then
      match DecodeList(lib, TrimSpace(h.body[h.at..]))
      case OutOfRange => Outcome.OutOfRange
      case Returned(items) =>
        Returned(if items.Some? && |items.value| > 0 then Some(List(items.value)) else None)
    else if tag == MapTag then
      match DecodeMap(lib, TrimSpace(h.body[h.at..]))
      case OutOfRange => Outcome.OutOfRange
      case Returned(fields) => Returned(if fields.Some? then Some(Map(fields.value)) else None)
    else
      Returned(None)
  }

  /** The `M` branch (main.go:254-266): the `{}` span after the tag, split
      into field fragments, each processed into a fresh record. `None`
      when the span is missing or unbalanced; an empty record otherwise
      still counts. */
  function DecodeMap(lib: Library, t: seq<char>): (r: Outcome<Option<Record>>)
    ensures !RetrieveBetweenBrackets(t, 0, Brace, false).Hit? ==> r == Returned(None)
    ensures RetrieveBetweenBrackets(t, 0, Brace, false).Hit? && r.Returned? ==> r.value.Some?
    ensures RetrieveBetweenBrackets(t, 0, Brace, false).Hit? ==>
      var interior := RetrieveBetweenBrackets(t, 0, Brace, false).interior;
      var frags := SplitObjects(interior, 0);
      frags.Returned? ==>
        (forall k :: 0 <= k < |frags.value| ==> |frags.value[k]| < |interior| + 1) &&
        r == match ProcessAll(lib, frags.value, map[], |interior| + 1)
             case OutOfRange => Outcome.OutOfRange
             case Returned(m) => Returned(Some(m))
    ensures r.Returned? && r.value.Some? ==> WellFormedRecord(r.value.value)
    decreases |t|, 1
  {
    var span := RetrieveBetweenBrackets(t, 0, Brace, false);
    if !span.Hit? then Returned(None)
    else
      match SplitObjects(span.interior, 0)
      case OutOfRange => Outcome.OutOfRange
      case Returned(frags) =>
        EmptyIsWellFormed();
        match ProcessAll(lib, frags, map[], |span.interior| + 1)
        case OutOfRange => Outcome.OutOfRange
        case Returned(m) => Returned(Some(m))
  }

  /** The loop `for _, mapObj := range mapObjects`: each fragment in turn
      updates the record. `bound` exceeds every fragment's length; it only
      serves the termination argument. */
  function ProcessAll(lib: Library, frags: seq<seq<char>>, rec: Record, bound: nat)
    : (r: Outcome<Record>)
    requires forall k :: 0 <= k < |frags| ==> |frags[k]| < bound
    ensures r.Returned? ==> rec.Keys <= r.value.Keys
    ensures r.Returned? ==> r.value.Keys <= rec.Keys + HeaderNames(frags)
    ensures r.Returned? && WellFormedRecord(rec) ==> WellFormedRecord(r.value)
    decreases bound, |frags|
  {
    if frags == [] then Returned(rec)
    else
      match ProcessNextObject(lib, frags[0], rec)
      case OutOfRange => Outcome.OutOfRange
      case Returned(next) => ProcessAll(lib, frags[1..], next, bound)
  }

  /** The field names that the fragments' headers read. */
  function HeaderNames(frags: seq<seq<char>>): set<string> {
    if frags == [] then {}
    else
      (match ReadHeader(frags[0])
       case Returned(Some(h)) => {h.name}
       case _ => {}) + HeaderNames(frags[1..])
  }

  /** Processing one more fragment is processing the others and then
      that one: the fragments are applied strictly in order, so a later
      fragment that writes a name overrides an earlier one. */
  lemma {:induction false} ProcessAllAppend(lib: Library, frags: seq<seq<char>>, f: seq<char>,
                                             rec: Record, bound: nat)
    requires forall k :: 0 <= k < |frags| ==> |frags[k]| < bound
    requires |f| < bound
    ensures forall k :: 0 <= k < |frags + [f]| ==> |(frags + [f])[k]| < bound
    ensures ProcessAll(lib, frags + [f], rec, bound) ==
      match ProcessAll(lib, frags, rec, bound)
      case OutOfRange => Outcome.OutOfRange
      case Returned(m) => ProcessNextObject(lib, f, m)
    decreases |frags|
  {
    assert forall k :: 0 <= k < |frags + [f]| ==> |(frags + [f])[k]| < bound by {
      forall k | 0 <= k < |frags + [f]|
        ensures |(frags + [f])[k]| < bound
      {
        if k < |frags| { assert (frags + [f])[k] == frags[k]; }
      }
    }
    if frags == [] {
      assert frags + [f] == [f];
    } else {
      assert (frags + [f])[1..] == frags[1..] + [f];
      assert (frags + [f])[0] == frags[0];
      match ProcessNextObject(lib, frags[0], rec)
      case OutOfRange =>
      case Returned(next) =>
        ProcessAllAppend(lib, frags[1..], f, next, bound);
    }
  }

  // ---------------------------------------------------------------------
  // Lists

  /** The tag, the element body and the index past the tag's colon of one
      list element `{ "TAG": content }` (main.go:184-196). */
  datatype ItemHead = ItemHead(tag: string, body: seq<char>, at: nat)

  /** The element's brace span (main.go:184-187); its tag stage reads the
      interior. */
  function ReadItem(frag: seq<char>): (r: Outcome<Option<ItemHead>>)
    ensures !RetrieveBetweenBrackets(frag, 0, Brace, false).Hit? ==> r == Returned(None)
    ensures RetrieveBetweenBrackets(frag, 0, Brace, false).Hit? ==>
      r == ItemTag(RetrieveBetweenBrackets(frag, 0, Brace, false).interior)
    ensures r.Returned? && r.value.Some? ==>
      var wrapper := RetrieveBetweenBrackets(frag, 0, Brace, false);
      && wrapper.Hit? && r.value.value.body == wrapper.interior
      && r.value.value.at <= |r.value.value.body|
  {
    var wrapper := RetrieveBetweenBrackets(frag, 0, Brace, false);
    if !wrapper.Hit? then Returned(None) else ItemTag(wrapper.interior)
  }

  /** The tag of a list element and the colon after it (main.go:188-196);
      unlike a field's tag, it must start the element body. */
  function ItemTag(body: seq<char>): (r: Outcome<Option<ItemHead>>)
    ensures RetrieveString(body, 0).Miss? ==> r == Returned(None)
    ensures RetrieveString(body, 0).OutOfRange? ==> r == Outcome.OutOfRange
    ensures RetrieveString(body, 0).Hit? ==>
      var tag := RetrieveString(body, 0);
      var colon := SeekNextTargetedToken(body, tag.next, ':');
      r == if colon.1 then Returned(Some(ItemHead(tag.interior, body, colon.0 + 1)))
           else Returned(None)
    ensures r.Returned? && r.value.Some? ==>
      var h := r.value.value;
      && h.body == body
      && RetrieveString(body, 0).Hit?
      && h.tag == RetrieveString(body, 0).interior
      && 0 < h.at <= |body|
      && SeekNextTargetedToken(body, RetrieveString(body, 0).next, ':') == (h.at - 1, true)
  {
    match RetrieveString(body, 0)
    case OutOfRange => Outcome.OutOfRange
    case Miss => Returned(None)
    case Hit(tag, after) =>
      var colon := SeekNextTargetedToken(body, after, ':');
      if !colon.1 then Returned(None)
      else Returned(Some(ItemHead(tag, body, colon.0 + 1)))
  }

  /** What one list element contributes: a value to append, nothing
      (`continue`, or a tag the list switch ignores), or the `return` that
      abandons the whole field. */
  datatype Item = Keep(v: Value) | Skip | Abort

  function Collect(v: Option<Value>): Item {
    match v
    case Some(x) => Keep(x)
    case None => Skip
  }

  /** One list element with its header read (main.go:197-248). An `N`
      content is read from one rune past the colon and trimmed before
      conversion. Only scalar tags contribute; a `BOOL` or `NULL` element
      without a content string aborts the field, an `S` one is skipped. */
  function ElementItem(lib: Library, h: ItemHead): (r: Outcome<Item>)
    requires h.at <= |h.body|
    ensures r.Returned? && r.value.Keep? ==> Scalar(r.value.v)
    ensures !TagOf(h.tag).IsScalar() ==> r == Returned(Skip)
    ensures r == Returned(Abort) <==>
      TagOf(h.tag) in {BoolTag, NullTag} && RetrieveString(h.body, h.at).Miss?
    ensures TagOf(h.tag) == NTag && RetrieveString(h.body, h.at + 1).Miss? ==> r == Returned(Skip)
    ensures TagOf(h.tag) == NTag && RetrieveString(h.body, h.at + 1).OutOfRange? ==> r == Outcome.OutOfRange
    ensures TagOf(h.tag) == STag && RetrieveString(h.body, h.at).Miss? ==> r == Returned(Skip)
    ensures TagOf(h.tag) in {STag, BoolTag, NullTag} && RetrieveString(h.body, h.at).OutOfRange? ==>
      r == Outcome.OutOfRange
    ensures TagOf(h.tag) == NTag && RetrieveString(h.body, h.at + 1).Hit? ==>
      r == Returned(Collect(StrToNum(lib, TrimSpace(RetrieveString(h.body, h.at + 1).interior))))
    ensures TagOf(h.tag) in {STag, BoolTag, NullTag} && RetrieveString(h.body, h.at).Hit? ==>
      r == Returned(Collect(ScalarValue(lib, TagOf(h.tag), RetrieveString(h.body, h.at).interior)))
  {
    var tag := TagOf(h.tag);
    if tag == NTag then
      match RetrieveString(h.body, h.at + 1)
      case OutOfRange => Outcome.OutOfRange
      case Miss => Returned(Skip)
      case Hit(c, _) => Returned(Collect(StrToNum(lib, TrimSpace(c))))
    else if tag.IsScalar() then
      match RetrieveString(h.body, h.at)
      case OutOfRange => Outcome.OutOfRange
      case Miss => Returned(if tag == STag then Skip else Abort)
      case Hit(c, _) => Returned(Collect(ScalarValue(lib, tag, c)))
    else
      Returned(Skip)
  }

  /** One list element: a fragment without a readable header is skipped. */
  function DecodeItem(lib: Library, frag: seq<char>): (r: Outcome<Item>)
    ensures r.Returned? && r.value.Keep? ==> Scalar(r.value.v)
    ensures ReadItem(frag) == Returned(None) ==> r == Returned(Skip)
    ensures ReadItem(frag) == Outcome.OutOfRange ==> r == Outcome.OutOfRange
    ensures ReadItem(frag).Returned? && ReadItem(frag).value.Some? ==>
      r == ElementItem(lib, ReadItem(frag).value.value)
  {
    match ReadItem(frag)
    case OutOfRange => Outcome.OutOfRange
    case Returned(None) => Returned(Skip)
    case Returned(Some(h)) => ElementItem(lib, h)
  }

  /** The item of every fragment, in order. Decoding is pure, so decoding
      all of them and then folding from the left has the effect of the
      Go loop that stops at the first abort. */
  function DecodeAll(lib: Library, frags: seq<seq<char>>): (items: seq<Outcome<Item>>)
    ensures |items| == |frags|
    ensures forall k :: 0 <= k < |frags| ==> items[k] == DecodeItem(lib, frags[k])
    ensures KeepsScalars(items)
  {
    seq(|frags|, k requires 0 <= k < |frags| => DecodeItem(lib, frags[k]))
  }

  /** Every kept value is a scalar. */
  predicate KeepsScalars(items: seq<Outcome<Item>>) {
    forall k :: 0 <= k < |items| && items[k].Returned? && items[k].value.Keep? ==> Scalar(items[k].value.v)
  }

  /** The values one element contributes. */
  function Contribution(item: Outcome<Item>): seq<Value> {
    match item
    case Returned(Keep(v)) => [v]
    case _ => []
  }

  /** The values kept, in element order. */
  function Kept(items: seq<Outcome<Item>>): (vs: seq<Value>)
    ensures |vs| <= |items|
    ensures KeepsScalars(items) ==> forall j :: 0 <= j < |vs| ==> Scalar(vs[j])
  {
    if items == [] then []
    else
      assert KeepsScalars(items) ==> KeepsScalars(items[1..]) by {
        if KeepsScalars(items) {
          forall k | 0 <= k < |items[1..]| && items[1..][k].Returned? && items[1..][k].value.Keep?
            ensures Scalar(items[1..][k].value.v)
          {
            assert items[1..][k] == items[k + 1];
          }
        }
      }
      Contribution(items[0]) + Kept(items[1..])
  }

  /** Whether every element decodes without a panic or an abort. */
  predicate Clean(items: seq<Outcome<Item>>) {
    forall k :: 0 <= k < |items| ==> items[k].Returned? && !items[k].value.Abort?
  }

  /** The element loop of the `L` branch: elements in order, appended when
      kept; the first abort or panic ends the loop. */
  function Gather(items: seq<Outcome<Item>>): (r: Outcome<Option<seq<Value>>>)
    ensures r.Returned? && r.value.Some? ==> Clean(items) && r.value.value == Kept(items)
    ensures Clean(items) ==> r == Returned(Some(Kept(items)))
    ensures r.Returned? && r.value.None? ==>
      exists k :: 0 <= k < |items| && items[k] == Returned(Abort)
    decreases |items|
  {
    if items == [] then Returned(Some([]))
    else
      if items[0] == Outcome.OutOfRange then Outcome.OutOfRange
      else if items[0] == Returned(Abort) then Returned(None)
      else
        match Gather(items[1..])
        case OutOfRange => Outcome.OutOfRange
        case Returned(None) => Returned(None)
        case Returned(Some(rest)) => Returned(Some(Contribution(items[0]) + rest))
  }

  /** An abort after only clean elements ends the element loop with
      nothing to store, whatever follows it. */
  lemma {:induction false} GatherStopsAtAbort(items: seq<Outcome<Item>>, k: nat)
    requires k < |items| && items[k] == Returned(Abort) && Clean(items[..k])
    ensures Gather(items) == Returned(None)
    decreases k
  {
    if k > 0 {
      var rest := items[1..];
      forall j | 0 <= j < k - 1
        ensures rest[j].Returned? && !rest[j].value.Abort?
      {
        assert rest[j] == items[..k][j + 1];
      }
      assert Clean(rest[..k - 1]);
      GatherStopsAtAbort(items[1..], k - 1);
      assert items[0] == items[..k][0];
    }
  }

  /** The `L` branch up to the final length test (main.go:173-250): the
      `[]` span after the tag, split into element fragments. `None` when
      the span is missing or unbalanced, or an element aborts. */
  function DecodeList(lib: Library, t: seq<char>): (r: Outcome<Option<seq<Value>>>)
    ensures !RetrieveBetweenBrackets(t, 0, Square, false).Hit? ==> r == Returned(None)
    ensures RetrieveBetweenBrackets(t, 0, Square, false).Hit? ==>
      var frags := SplitObjects(RetrieveBetweenBrackets(t, 0, Square, false).interior, 0);
      frags.Returned? ==> r == Gather(DecodeAll(lib, frags.value))
    ensures r.Returned? && r.value.Some? ==>
      forall k :: 0 <= k < |r.value.value| ==> Scalar(r.value.value[k])
  {
    var span := RetrieveBetweenBrackets(t, 0, Square, false);
    if !span.Hit? then Returned(None)
    else
      match SplitObjects(span.interior, 0)
      case OutOfRange => Outcome.OutOfRange
      case Returned(frags) => Gather(DecodeAll(lib, frags))
  }

  // ---------------------------------------------------------------------
  // Properties

  /** A field with an unrecognised tag leaves the record as it was. */
  lemma UnknownTagWritesNothing(lib: Library, s: seq<char>, rec: Record)
    requires ReadHeader(s).Returned? && ReadHeader(s).value.Some?
    requires TagOf(ReadHeader(s).value.value.tag) == OtherTag
    ensures ProcessNextObject(lib, s, rec) == Returned(rec)
  {
  }

  /** A scalar field with a content string stores the decoded scalar under
      its name, or nothing when the content does not decode. */
  lemma ScalarFieldStores(lib: Library, s: seq<char>, rec: Record)
    requires ReadHeader(s).Returned? && ReadHeader(s).value.Some?
    requires var h := ReadHeader(s).value.value;
      TagOf(h.tag).IsScalar() && RetrieveString(h.body, h.at).Hit?
    ensures var h := ReadHeader(s).value.value;
      var v := ScalarValue(lib, TagOf(h.tag), RetrieveString(h.body, h.at).interior);
      ProcessNextObject(lib, s, rec) == Returned(if v.Some? then rec[h.name := v.value] else rec)
  {
  }

  /** A nested `M` field whose braces match stores a record, even an empty
      one, unless a fragment inside it panics. */
  lemma MapFieldAlwaysStores(lib: Library, s: seq<char>, rec: Record)
    requires ReadHeader(s).Returned? && ReadHeader(s).value.Some?
    requires var h := ReadHeader(s).value.value;
      TagOf(h.tag) == MapTag && RetrieveBetweenBrackets(TrimSpace(h.body[h.at..]), 0, Brace, false).Hit?
    requires ProcessNextObject(lib, s, rec).Returned?
    ensures var name := ReadHeader(s).value.value.name;
      var r := ProcessNextObject(lib, s, rec).value;
      name in r && r[name].Map?
    ensures var h := ReadHeader(s).value.value;
      var nested := DecodeMap(lib, TrimSpace(h.body[h.at..]));
      && nested.Returned? && nested.value.Some?
      && ProcessNextObject(lib, s, rec) == Returned(rec[h.name := Map(nested.value.value)])
  {
    var h := ReadHeader(s).value.value;
    var v := FieldValue(lib, h);
    assert v.Returned?;
    assert v.value.Some? && v.value.value.Map?;
    assert ProcessNextObject(lib, s, rec) == Returned(rec[h.name := v.value.value]);
  }

  /** A list field whose elements all decode without a panic or an abort
      stores the kept scalars in element order, provided there is at least
      one. */
  lemma ListFieldStores(lib: Library, s: seq<char>, rec: Record)
    requires ReadHeader(s).Returned? && ReadHeader(s).value.Some?
    requires var h := ReadHeader(s).value.value;
      var span := RetrieveBetweenBrackets(TrimSpace(h.body[h.at..]), 0, Square, false);
      && TagOf(h.tag) == ListTag
      && span.Hit? && SplitObjects(span.interior, 0).Returned?
      && Clean(DecodeAll(lib, SplitObjects(span.interior, 0).value))
      && Kept(DecodeAll(lib, SplitObjects(span.interior, 0).value)) != []
    ensures var h := ReadHeader(s).value.value;
      var span := RetrieveBetweenBrackets(TrimSpace(h.body[h.at..]), 0, Square, false);
      var vs := Kept(DecodeAll(lib, SplitObjects(span.interior, 0).value));
      ProcessNextObject(lib, s, rec) == Returned(rec[h.name := List(vs)])
  {
    var h := ReadHeader(s).value.value;
    var span := RetrieveBetweenBrackets(TrimSpace(h.body[h.at..]), 0, Square, false);
    var vs := Kept(DecodeAll(lib, SplitObjects(span.interior, 0).value));
    assert DecodeList(lib, TrimSpace(h.body[h.at..])) == Returned(Some(vs));
    assert FieldValue(lib, h) == Returned(Some(List(vs)));
  }

  /** A list field with an element that aborts (a `BOOL` or `NULL`
      element whose content does not read) after only clean elements
      leaves the record as it was. */
  lemma AbortedListWritesNothing(lib: Library, s: seq<char>, rec: Record, k: nat)
    requires ReadHeader(s).Returned? && ReadHeader(s).value.Some?
    requires var h := ReadHeader(s).value.value;
      var span := RetrieveBetweenBrackets(TrimSpace(h.body[h.at..]), 0, Square, false);
      && TagOf(h.tag) == ListTag
      && span.Hit? && SplitObjects(span.interior, 0).Returned?
      && var items := DecodeAll(lib, SplitObjects(span.interior, 0).value);
      && k < |items| && items[k] == Returned(Abort) && Clean(items[..k])
    ensures ProcessNextObject(lib, s, rec) == Returned(rec)
  {
    var h := ReadHeader(s).value.value;
    var span := RetrieveBetweenBrackets(TrimSpace(h.body[h.at..]), 0, Square, false);
    GatherStopsAtAbort(DecodeAll(lib, SplitObjects(span.interior, 0).value), k);
  }

  /** The interior of a matched bracket span never ends in an unpaired
      backslash, so splitting it never panics: the panic arms after
      `SplitObjects` in the `M` and `L` branches are never taken. */
  lemma BracketInteriorSplits(t: seq<char>, index: nat, b: Bracket, strict: bool)
    requires RetrieveBetweenBrackets(t, index, b, strict).Hit?
    ensures SplitObjects(RetrieveBetweenBrackets(t, index, b, strict).interior, 0).Returned?
  {
    var r := RetrieveBetweenBrackets(t, index, b, strict);
    var p := SeekNextToken(t, index);
    EscapedInSlice(t, p + 1, r.next - 1, r.next - 1);
  }

  /** List elements tagged `N` are read one rune past the colon, fields at
      the colon: with no space after the colon the element is dropped,
      while the same text as a field decodes. */
  lemma ListNumberNeedsSpace(lib: Library)
    ensures ElementItem(lib, ItemHead("N", "\"N\":\"5\"", 4)) == Returned(Skip)
    ensures ElementItem(lib, ItemHead("N", "\"N\": \"5\"", 4)) == Returned(Collect(StrToNum(lib, "5")))
    ensures FieldValue(lib, Header("x", "N", "\"N\":\"5\"", 4)) == Returned(StrToNum(lib, "5"))
  {
    NumberTagged();
    TightContent();
    LooseContent();
  }

  lemma NumberTagged()
    ensures TagOf("N") == NTag && TrimSpace("5") == "5"
  {
    TrimSpaceUnique([], "N", []);
    assert [] + "N" + [] == "N";
    TrimSpaceUnique([], "5", []);
    assert [] + "5" + [] == "5";
  }

  lemma TightContent()
    ensures RetrieveString("\"N\":\"5\"", 5).Miss?
    ensures RetrieveString("\"N\":\"5\"", 4) == Hit("5", 7)
  {
    assert StringEnd("\"N\":\"5\"", 5, 5) == 6;
  }

  lemma LooseContent()
    ensures RetrieveString("\"N\": \"5\"", 5) == Hit("5", 8)
  {
    assert StringEnd("\"N\": \"5\"", 6, 6) == 7;
  }
}

=== FILE: lexer.dfy ===
/** The reference reading of a rune slice that the bracket scanner and the
    comma splitter share: which runes a backslash skips, and the nesting
    depth and in-string flag after each prefix. The scanners themselves
    (module Scanner) walk the runes with cursor jumps, as the Go loops do;
    they are proved against these left-to-right folds. */
module Lexer {

  /** The two bracket pairs the program scans: `{}` for records and
      tagged wrappers, `[]` for list bodies. */
  datatype Bracket = Brace | Square {
    function Open(): char { if Brace? then '{' else '[' }
    function Close(): char { if Brace? then '}' else ']' }
  }

  /** Scanning `s` from `from`, the rune at `k` is skipped: the rune before
      it is a backslash that was not itself skipped. `Escaped(s, from, |s|)`
      says that the text ends in an unpaired backslash. */
  function Escaped(s: seq<char>, from: nat, k: nat): bool
    requires from <= k <= |s|
    decreases k
  {
    k > from && !Escaped(s, from, k - 1) && s[k - 1] == '\\'
  }

  /** The rune at `j` takes part in the structure: it is neither skipped
      nor a skipping backslash. */
  predicate Structural(s: seq<char>, from: nat, j: nat)
    requires from <= j < |s|
  {
    !Escaped(s, from, j) && s[j] != '\\'
  }

  /** Bracket depth and the quote-toggled flag. */
  datatype Nesting = Nesting(depth: int, inString: bool)

  /** The effect of one structural rune. Inside a quote-toggled run the
      brackets are inert; outside it they move the depth by one. */
  function Step(n: Nesting, c: char, b: Bracket): (r: Nesting)
    ensures n.inString ==> r.depth == n.depth
    ensures r.depth < n.depth ==> c == b.Close() && r.depth == n.depth - 1
    ensures r.depth > n.depth ==> c == b.Open() && r.depth == n.depth + 1
    ensures r.inString != n.inString <==> c == '"'
    ensures !n.inString && c == b.Close() ==> r.depth == n.depth - 1
    ensures !n.inString && c == b.Open() ==> r.depth == n.depth + 1
  {
    if c == b.Close() then
      if n.inString then n else n.(depth := n.depth - 1)
    else if c == b.Open() then
      if n.inString then n else n.(depth := n.depth + 1)
    else if c == '"' then
      n.(inString := !n.inString)
    else
      n
  }

  /** The nesting after scanning `s[from..k]`, starting at depth `d0` and
      outside any string. */
  function Lex(s: seq<char>, b: Bracket, from: nat, k: nat, d0: int): Nesting
    requires from <= k <= |s|
    decreases k
  {
    if k == from then Nesting(d0, false)
    else
      var n := Lex(s, b, from, k - 1, d0);
      if Structural(s, from, k - 1) then Step(n, s[k - 1], b) else n
  }

  /** A bracket that is skipped by a backslash, or that lies inside a
      quote-toggled run, leaves the depth unchanged. */
  lemma ShieldedBracketKeepsDepth(s: seq<char>, b: Bracket, from: nat, j: nat, d0: int)
    requires from <= j < |s|
    requires Escaped(s, from, j) || Lex(s, b, from, j, d0).inString
    ensures Lex(s, b, from, j + 1, d0).depth == Lex(s, b, from, j, d0).depth
  {
  }

  /** A backslash the scan reaches is skipped together with the rune after
      it; neither changes the nesting. */
  lemma LexSkipsEscape(s: seq<char>, b: Bracket, from: nat, i: nat, d0: int)
    requires from <= i < |s| && s[i] == '\\' && !Escaped(s, from, i)
    ensures Escaped(s, from, i + 1)
    ensures Lex(s, b, from, i + 1, d0) == Lex(s, b, from, i, d0)
    ensures i + 1 < |s| ==> !Escaped(s, from, i + 2) && Lex(s, b, from, i + 2, d0) == Lex(s, b, from, i, d0)
  {
  }

  /** Any other rune the scan reaches acts through `Step`. */
  lemma LexSteps(s: seq<char>, b: Bracket, from: nat, i: nat, d0: int)
    requires from <= i < |s| && s[i] != '\\' && !Escaped(s, from, i)
    ensures !Escaped(s, from, i + 1)
    ensures Lex(s, b, from, i + 1, d0) == Step(Lex(s, b, from, i, d0), s[i], b)
  {
  }

  /** Which runes are skipped depends only on the text from the scan's
      start: the same text cut out of a longer one skips the same runes. */
  lemma {:induction false} EscapedInSlice(s: seq<char>, from: nat, k: nat, hi: nat)
    requires from <= k <= hi <= |s|
    ensures Escaped(s[from..hi], 0, k - from) == Escaped(s, from, k)
    decreases k
  {
    if k > from {
      EscapedInSlice(s, from, k - 1, hi);
      assert s[from..hi][k - 1 - from] == s[k - 1];
    }
  }
}

=== FILE: results.dfy ===
/** Failure-carrying datatypes shared by the scanner and the interpreter. */
module Results {

  /** An optional value: Go's `nil` interface result, or an omitted field. */
  datatype Option<+T> = None | Some(value: T)

  /** What one Go call does: it returns a value, or it panics because it
      sliced a rune slice past its length. A panic is not recovered anywhere
      in the program, so it aborts every enclosing call. */
  datatype Outcome<+T> = Returned(value: T) | OutOfRange
}

=== FILE: runes.dfy ===
/** Rune classes and the trimming functions of Go's `strings` package that
    the interpreter applies to extracted text. */
module Runes {

  /** Go's `unicode.IsSpace`: the Latin-1 spaces `\t \n \v \f \r`, space,
      U+0085 and U+00A0, plus the other code points with the Unicode
      White_Space property. */
  predicate IsSpace(c: char)
    ensures c as int < 0x100 ==> (IsSpace(c) <==> c as int in {9, 10, 11, 12, 13, 0x20, 0x85, 0xA0})
  {
    var n := c as int;
    || 9 <= n <= 13
    || n == 0x20 || n == 0x85 || n == 0xA0 || n == 0x1680
    || 0x2000 <= n <= 0x200A
    || n == 0x2028 || n == 0x2029 || n == 0x202F || n == 0x205F || n == 0x3000
  }

  /** The rune classes the program trims: white space, and the cutset
      `"0"`. */
  datatype Cutset = Spaces | Zeros {
    predicate Has(c: char) {
      if Spaces? then IsSpace(c) else c == '0'
    }
  }

  /** Every rune of `s` is in `p`. */
  predicate All(s: seq<char>, p: Cutset) {
    forall i :: 0 <= i < |s| ==> p.Has(s[i])
  }

  /** `s` is empty or begins and ends with a rune outside `p`. */
  predicate Bordered(s: seq<char>, p: Cutset) {
    s == [] || (!p.Has(s[0]) && !p.Has(s[|s| - 1]))
  }

  /** The index of the first rune at or after `i` that is outside `p`, or
      `|s|` (the scan of Go's `indexFunc` with the predicate negated). */
  function SkipForward(s: seq<char>, p: Cutset, i: nat): (n: nat)
    requires i <= |s|
    ensures i <= n <= |s|
    ensures forall k :: i <= k < n ==> p.Has(s[k])
    ensures n < |s| ==> !p.Has(s[n])
    decreases |s| - i
  {
    if i < |s| && p.Has(s[i]) then SkipForward(s, p, i + 1) else i
  }

  /** The index just past the last rune before `j` that is outside `p`,
      or `lo` (the scan of Go's `lastIndexFunc`). */
  function SkipBackward(s: seq<char>, p: Cutset, lo: nat, j: nat): (n: nat)
    requires lo <= j <= |s|
    ensures lo <= n <= j
    ensures forall k :: n <= k < j ==> p.Has(s[k])
    ensures n > lo ==> !p.Has(s[n - 1])
    decreases j - lo
  {
    if lo < j && p.Has(s[j - 1]) then SkipBackward(s, p, lo, j - 1) else j
  }

  /** The scan stops exactly at the first rune outside `p`: any `j` with
      only `p`-runes between `i` and it, and no `p`-rune at it, is the
      result. */
  lemma {:induction false} SkipForwardStops(s: seq<char>, p: Cutset, i: nat, j: nat)
    requires i <= j <= |s|
    requires forall k :: i <= k < j ==> p.Has(s[k])
    requires j < |s| ==> !p.Has(s[j])
    ensures SkipForward(s, p, i) == j
    decreases j - i
  {
    if i < j {
      SkipForwardStops(s, p, i + 1, j);
    }
  }

  /** The backward scan stops exactly after the last rune outside `p`. */
  lemma {:induction false} SkipBackwardStops(s: seq<char>, p: Cutset, lo: nat, n: nat, j: nat)
    requires lo <= n <= j <= |s|
    requires forall k :: n <= k < j ==> p.Has(s[k])
    requires n > lo ==> !p.Has(s[n - 1])
    ensures SkipBackward(s, p, lo, j) == n
    decreases j - lo
  {
    if n < j {
      SkipBackwardStops(s, p, lo, n, j - 1);
    }
  }

  /** `strings.TrimLeft` with a cutset: `s` without its longest prefix of
      `p`-runes. */
  function TrimLeft(s: seq<char>, p: Cutset): (r: seq<char>)
    ensures |r| <= |s|
    ensures r == s[|s| - |r|..]
    ensures All(s[..|s| - |r|], p)
    ensures r != [] ==> !p.Has(r[0])
  {
    s[SkipForward(s, p, 0)..]
  }

  /** `strings.TrimSpace`: `s` without its leading and trailing white
      space. */
  function TrimSpace(s: seq<char>): (r: seq<char>)
    ensures |r| <= |s|
    ensures Bordered(r, Spaces)
  {
    var a := SkipForward(s, Spaces, 0);
    s[a..SkipBackward(s, Spaces, a, |s|)]
  }

  /** The trimmed text is the infix of `s` between a white-space prefix and
      a white-space suffix. */
  lemma TrimSpaceInfix(s: seq<char>)
    ensures var a := SkipForward(s, Spaces, 0);
      var b := SkipBackward(s, Spaces, a, |s|);
      && TrimSpace(s) == s[a..b]
      && All(s[..a], Spaces) && All(s[b..], Spaces)
  {
  }

  /** `TrimSpace` is characterised independently of how it scans: whatever
      white space surrounds a bordered text, trimming returns that text. */
  lemma TrimSpaceUnique(w1: seq<char>, t: seq<char>, w2: seq<char>)
    requires All(w1, Spaces) && All(w2, Spaces)
    requires Bordered(t, Spaces)
    ensures TrimSpace(w1 + t + w2) == t
  {
    if t == [] {
      TrimAllSpace(w1 + t + w2);
    } else {
      TrimAroundText(w1, t, w2);
    }
  }

  /** A text of white space only trims to nothing. */
  lemma TrimAllSpace(s: seq<char>)
    requires All(s, Spaces)
    ensures TrimSpace(s) == []
  {
    SkipForwardStops(s, Spaces, 0, |s|);
  }

  lemma TrimAroundText(w1: seq<char>, t: seq<char>, w2: seq<char>)
    requires All(w1, Spaces) && All(w2, Spaces)
    requires t != [] && !IsSpace(t[0]) && !IsSpace(t[|t| - 1])
    ensures TrimSpace(w1 + t + w2) == t
  {
    var s := w1 + t + w2;
    var a, b := |w1|, |w1| + |t|;
    assert s[a] == t[0];
    SkipForwardStops(s, Spaces, 0, a);
    assert s[b - 1] == t[|t| - 1];
    SkipBackwardStops(s, Spaces, a, b, |s|);
    assert s[a..b] == t;
  }

  /** Trimming twice is trimming once. */
  lemma TrimSpaceIdempotent(s: seq<char>)
    ensures TrimSpace(TrimSpace(s)) == TrimSpace(s)
  {
    var t := TrimSpace(s);
    assert [] + t + [] == t;
    TrimSpaceUnique([], t, []);
  }
}

=== FILE: scanner.dfy ===
/** Cursor scanners over an immutable rune slice (main.go:65-78, 300-361).
    Each returns what the Go function returns: a position, or the triple
    `(interior, nextIndex, ok)`, here `Hit(interior, next)` for
    `ok == true` and `Miss` for Go's `([]rune{}, 0, false)`. */
module Scanner {
  import opened Runes
  import opened Lexer

  /** The result of a span extraction. `OutOfRange` is the runtime panic
      of a slice expression whose upper bound passes the end of the runes. */
  datatype Scanned = Hit(interior: seq<char>, next: nat) | Miss | OutOfRange

  /** `t` is the run of `s` from `lo` up to, not including, `hi`. */
  predicate Infix(t: seq<char>, s: seq<char>, lo: int, hi: int) {
    0 <= lo <= hi <= |s| && t == s[lo..hi]
  }

  /** `SeekNextToken`: the first position at or after `index` that holds
      no white space, or the end. A start past the end is returned as is. */
  function SeekNextToken(s: seq<char>, index: nat): (p: nat)
    ensures index <= |s| ==> index <= p <= |s|
    ensures index > |s| ==> p == index
    ensures forall k :: index <= k < p ==> k < |s| && IsSpace(s[k])
    ensures p < |s| ==> !IsSpace(s[p])
    decreases |s| - index
  {
    if index < |s| && IsSpace(s[index]) then SeekNextToken(s, index + 1) else index
  }

  /** `SeekNextTargetedToken`: the same position, and whether it holds
      `target`. Nothing is consumed. (The Go function's `required` flag is
      never read and is not modelled.) */
  function SeekNextTargetedToken(s: seq<char>, index: nat, target: char): (r: (nat, bool))
    ensures r.0 == SeekNextToken(s, index)
    ensures r.1 <==> r.0 < |s| && s[r.0] == target
  {
    var p := SeekNextToken(s, index);
    (p, p < |s| && s[p] == target)
  }

  // ---------------------------------------------------------------------
  // Quoted strings

  /** Scanning from `from` (just past an opening quote), position `c` holds
      a quote that ends the string: one not skipped by a backslash. */
  predicate ClosesString(s: seq<char>, from: nat, c: nat) {
    from <= c < |s| && s[c] == '"' && !Escaped(s, from, c)
  }

  /** No quote in `s[from..e]` ends the string. */
  predicate NoCloseBefore(s: seq<char>, from: nat, e: nat) {
    forall c :: from <= c < e ==> !ClosesString(s, from, c)
  }

  /** The index at which the loop of `RetrieveString` stops: the first
      closing quote at or after `i`, else `|s|`, or `|s| + 1` when the last
      rune is an unpaired backslash whose skip jumps past the end. */
  function StringEnd(s: seq<char>, from: nat, i: nat): (e: nat)
    requires from <= |s| && from <= i <= |s| + 1
    requires i <= |s| ==> !Escaped(s, from, i)
    requires i == |s| + 1 ==> Escaped(s, from, |s|)
    ensures i <= e <= |s| + 1
    ensures forall c :: i <= c < e ==> !ClosesString(s, from, c)
    ensures e < |s| ==> ClosesString(s, from, e)
    ensures e == |s| ==> !Escaped(s, from, |s|)
    ensures e == |s| + 1 ==> Escaped(s, from, |s|)
    decreases |s| + 1 - i
  {
    if i < |s| && s[i] != '"' then
      if s[i] == '\\' then
        assert Escaped(s, from, i + 1);
        StringEnd(s, from, i + 2)
      else
        StringEnd(s, from, i + 1)
    else
      i
  }

  /** `RetrieveString`: skip white space to an opening quote, then take the
      runes up to the first quote that no backslash skips. A missing
      closing quote is still a success, with the rest of the input as the
      interior; an unpaired backslash at the very end makes the final slice
      pass the end of the runes. */
  function RetrieveString(s: seq<char>, index: nat): (r: Scanned)
    ensures r.Miss? <==> !SeekNextTargetedToken(s, index, '"').1
    ensures r.Hit? ==>
      var q := SeekNextToken(s, index);
      && q < |s| && s[q] == '"'
      && q + 1 < r.next <= |s| + 1
      && Infix(r.interior, s, q + 1, r.next - 1)
      && NoCloseBefore(s, q + 1, r.next - 1)
      && (r.next <= |s| ==> ClosesString(s, q + 1, r.next - 1))
      && (r.next == |s| + 1 ==> !Escaped(s, q + 1, |s|))
    ensures r.OutOfRange? ==>
      var q := SeekNextToken(s, index);
      && q < |s| && s[q] == '"'
      && Escaped(s, q + 1, |s|)
      && NoCloseBefore(s, q + 1, |s|)
  {
    var t := SeekNextTargetedToken(s, index, '"');
    if !t.1 then Miss
    else
      var e := StringEnd(s, t.0 + 1, t.0 + 1);
      if e > |s| then OutOfRange else Hit(s[t.0 + 1..e], e + 1)
  }

  /** A quote right after a backslash that is not itself skipped never ends
      the extracted string: the extraction stops elsewhere. */
  lemma EscapedQuoteNeverCloses(s: seq<char>, index: nat, c: nat)
    requires RetrieveString(s, index).Hit?
    requires var q := SeekNextToken(s, index);
      q + 1 < c < |s| && s[c - 1] == '\\' && !Escaped(s, q + 1, c - 1)
    ensures RetrieveString(s, index).next != c + 1
  {
  }

  /** A string without its closing quote is still extracted: `"ab` yields
      the interior `ab` and a next index one past the end. */
  lemma UnterminatedStringSucceeds()
    ensures RetrieveString("\"ab", 0) == Hit("ab", 4)
  {
    assert StringEnd("\"ab", 1, 1) == 3;
  }

  // ---------------------------------------------------------------------
  // Bracket spans

  /** Scanning from `from` (just past an opening bracket, depth 1), the
      prefix `s[from..k]` is the first one whose depth is back to zero. */
  predicate ClosesAt(s: seq<char>, b: Bracket, from: nat, k: nat) {
    && from < k <= |s|
    && Lex(s, b, from, k, 1).depth == 0
    && forall j :: from <= j < k ==> Lex(s, b, from, j, 1).depth > 0
  }

  /** No prefix of `s[from..k]` nests deeper than the opening bracket. */
  predicate Flat(s: seq<char>, b: Bracket, from: nat, k: nat)
    requires from <= k <= |s|
  {
    forall j :: from <= j <= k ==> Lex(s, b, from, j, 1).depth <= 1
  }

  /** Some prefix of `s[from..]` brings the depth back to zero, without
      nesting deeper on the way when `strict`. */
  ghost predicate Balanced(s: seq<char>, b: Bracket, strict: bool, from: nat) {
    exists k :: ClosesAt(s, b, from, k) && (strict ==> Flat(s, b, from, k))
  }

  /** Every prefix of `s[from..i]` (up to the end) is still open, and in
      strict mode none is nested. */
  predicate StillOpen(s: seq<char>, b: Bracket, strict: bool, from: nat, i: nat)
    requires from <= |s|
  {
    forall j :: from <= j <= i && j <= |s| ==>
      0 < Lex(s, b, from, j, 1).depth && (strict ==> Lex(s, b, from, j, 1).depth <= 1)
  }

  /** How the loop of `RetrieveBetweenBrackets` ends: on the matching
      closing bracket, at the end with the count still positive, or on a
      nested opening bracket in strict mode. */
  datatype Match = Closed(at: nat) | Unbalanced | Nested

  /** The loop of `RetrieveBetweenBrackets` from position `i`, with the
      Go variables `bracketCount` and `inString`. A backslash skips the
      next rune; any other rune acts through `Step`, which is the Go
      `switch` on the closing bracket, the opening bracket and the quote. */
  function MatchBracket(s: seq<char>, b: Bracket, strict: bool, from: nat, i: nat,
                        count: int, inString: bool): (m: Match)
    requires from <= |s| && from <= i <= |s| + 1
    requires count > 0
    requires i <= |s| ==> !Escaped(s, from, i) && Lex(s, b, from, i, 1) == Nesting(count, inString)
    requires i == |s| + 1 ==> Escaped(s, from, |s|)
    requires StillOpen(s, b, strict, from, i)
    ensures m.Closed? ==> i <= m.at < |s| && s[m.at] == b.Close() && !Escaped(s, from, m.at)
    ensures m.Unbalanced? ==> forall k :: from <= k <= |s| ==> Lex(s, b, from, k, 1).depth > 0
    ensures m.Nested? ==> strict && !Balanced(s, b, strict, from)
    decreases |s| + 1 - i
  {
    if i >= |s| then Unbalanced
    else if s[i] == '\\' then
      LexSkipsEscape(s, b, from, i, 1);
      MatchBracket(s, b, strict, from, i + 2, count, inString)
    else
      var n := Step(Nesting(count, inString), s[i], b);
      LexSteps(s, b, from, i, 1);
      if n.depth == 0 then
        Closed(i)
      else if strict && n.depth > count then
        NestedIsUnbalanced(s, b, from, i + 1);
        Nested
      else
        MatchBracket(s, b, strict, from, i + 1, n.depth, n.inString)
  }

  /** Where the loop stops on a closing bracket, that bracket is the first
      one to bring the depth back to zero. */
  lemma {:induction false} MatchBracketCloses(s: seq<char>, b: Bracket, strict: bool, from: nat, i: nat,
                                              count: int, inString: bool)
    requires from <= |s| && from <= i <= |s| + 1
    requires count > 0
    requires i <= |s| ==> !Escaped(s, from, i) && Lex(s, b, from, i, 1) == Nesting(count, inString)
    requires i == |s| + 1 ==> Escaped(s, from, |s|)
    requires StillOpen(s, b, strict, from, i)
    ensures var m := MatchBracket(s, b, strict, from, i, count, inString);
      m.Closed? ==> ClosesAt(s, b, from, m.at + 1) && (strict ==> Flat(s, b, from, m.at + 1))
    decreases |s| + 1 - i
  {
    if i >= |s| {
    } else if s[i] == '\\' {
      LexSkipsEscape(s, b, from, i, 1);
      MatchBracketCloses(s, b, strict, from, i + 2, count, inString);
    } else {
      var n := Step(Nesting(count, inString), s[i], b);
      LexSteps(s, b, from, i, 1);
      if n.depth == 0 {
        ClosesHere(s, b, strict, from, i);
      } else if strict && n.depth > count {
      } else {
        MatchBracketCloses(s, b, strict, from, i + 1, n.depth, n.inString);
      }
    }
  }

  /** The first prefix whose depth is zero closes the span. */
  lemma ClosesHere(s: seq<char>, b: Bracket, strict: bool, from: nat, i: nat)
    requires from <= i < |s|
    requires StillOpen(s, b, strict, from, i)
    requires Lex(s, b, from, i + 1, 1).depth == 0
    ensures ClosesAt(s, b, from, i + 1)
    ensures strict ==> Flat(s, b, from, i + 1)
  {
  }

  /** Once some prefix is open and two deep, no later closing prefix can
      be flat. */
  lemma NestedIsUnbalanced(s: seq<char>, b: Bracket, from: nat, i: nat)
    requires from <= i <= |s|
    requires Lex(s, b, from, i, 1).depth > 1
    requires forall j :: from <= j < i ==> Lex(s, b, from, j, 1).depth > 0
    ensures !Balanced(s, b, true, from)
  {
    forall k: nat | ClosesAt(s, b, from, k) ensures !Flat(s, b, from, k) {
      assert k > i;
    }
  }

  /** `RetrieveBetweenBrackets`: skip white space to the opening bracket,
      then take the runes up to the bracket that brings the depth back to
      zero. `strict` stands for passing any `duplicatesAllowed` argument
      (no caller does); it makes an unquoted nested opening bracket fail
      the extraction. Never panics. */
  function RetrieveBetweenBrackets(s: seq<char>, index: nat, b: Bracket, strict: bool): (r: Scanned)
    ensures !r.OutOfRange?
    ensures var p := SeekNextToken(s, index);
      r.Hit? <==> p < |s| && s[p] == b.Open() && Balanced(s, b, strict, p + 1)
    ensures r.Hit? ==>
      var p := SeekNextToken(s, index);
      && p < |s| && s[p] == b.Open()
      && ClosesAt(s, b, p + 1, r.next)
      && s[r.next - 1] == b.Close()
      && !Escaped(s, p + 1, r.next - 1)
      && Infix(r.interior, s, p + 1, r.next - 1)
    ensures r.Hit? ==> |r.interior| + 2 <= |s|
  {
    var t := SeekNextTargetedToken(s, index, b.Open());
    if !t.1 then Miss
    else
      MatchBracketCloses(s, b, strict, t.0 + 1, t.0 + 1, 1, false);
      match MatchBracket(s, b, strict, t.0 + 1, t.0 + 1, 1, false)
      case Closed(c) => Hit(s[t.0 + 1..c], c + 1)
      case _ => Miss
  }
}

=== FILE: splitter.dfy ===
/** `SplitObjects` (main.go:363-393): cutting a span into comma-separated
    fragments. */
module Splitter {
  import opened Results
  import opened Lexer

  /** Scanning from `start`, the comma at `c` separates two fragments: no
      backslash skips it and the `{}` depth before it is zero. The depth
      counts only braces outside quote-toggled runs, but the quote flag
      itself does not protect a comma, and square brackets are not
      tracked at all. */
  predicate SplitsAt(s: seq<char>, start: nat, c: nat) {
    && start <= c < |s|
    && s[c] == ','
    && !Escaped(s, start, c)
    && Lex(s, Brace, start, c, 0).depth == 0
  }

  /** `ps` lists positions in `[lo, hi)` in increasing order. */
  predicate Ascending(ps: seq<nat>, lo: nat, hi: nat) {
    && (forall j :: 0 <= j < |ps| ==> lo <= ps[j] < hi)
    && (forall j, k :: 0 <= j < k < |ps| ==> ps[j] < ps[k])
  }

  /** The separating commas at or after `i`, in order. */
  function SplitPoints(s: seq<char>, start: nat, i: nat): (ps: seq<nat>)
    ensures Ascending(ps, i, |s|)
    decreases |s| - i
  {
    if i >= |s| then []
    else (if SplitsAt(s, start, i) then [i] else []) + SplitPoints(s, start, i + 1)
  }

  /** The cut points from `i` are exactly the separating commas from `i`. */
  lemma {:induction false} SplitPointsAre(s: seq<char>, start: nat, i: nat)
    ensures forall c: nat :: c in SplitPoints(s, start, i) <==> i <= c && SplitsAt(s, start, c)
    decreases |s| - i
  {
    if i < |s| {
      SplitPointsAre(s, start, i + 1);
    }
  }

  /** Cuts `s[lo..]` at the positions `ps`, dropping the runes at those
      positions. */
  function Cut(s: seq<char>, lo: nat, ps: seq<nat>): (parts: seq<seq<char>>)
    requires lo <= |s| && Ascending(ps, lo, |s|)
    ensures |parts| == |ps| + 1
    ensures forall k :: 0 <= k < |parts| ==> |parts[k]| <= |s| - lo
    decreases |ps|
  {
    if ps == [] then [s[lo..]]
    else [s[lo..ps[0]]] + Cut(s, ps[0] + 1, ps[1..])
  }

  /** The fragments glued back together with `sep` between neighbours. */
  function Join(parts: seq<seq<char>>, sep: char): seq<char>
    requires |parts| > 0
  {
    if |parts| == 1 then parts[0] else parts[0] + [sep] + Join(parts[1..], sep)
  }

  /** The loop of `SplitObjects` from position `i`, with the Go variables
      `bracketCount` (`depth`), `inString` and `leftCursor` (`left`). It
      yields the fragments from `left` onwards; the final slice passes the
      end of the runes when an unpaired backslash made the cursor jump
      past it. */
  function SplitLoop(s: seq<char>, start: nat, i: nat, depth: int, inString: bool, left: nat)
    : (r: Outcome<seq<seq<char>>>)
    requires start <= left <= |s| && left <= i <= |s| + 1
    requires i <= |s| ==> !Escaped(s, start, i) && Lex(s, Brace, start, i, 0) == Nesting(depth, inString)
    requires i == |s| + 1 ==> Escaped(s, start, |s|)
    ensures Escaped(s, start, |s|) ==> r == OutOfRange
    ensures !Escaped(s, start, |s|) ==> r == Returned(Cut(s, left, SplitPoints(s, start, i)))
    decreases |s| + 1 - i, 1
  {
    if i > |s| then OutOfRange
    else if i == |s| then
      assert s[left..i] == s[left..];
      Returned([s[left..i]])
    else if s[i] == '\\' then
      SplitPointsSkipEscape(s, start, i);
      SplitLoop(s, start, i + 2, depth, inString, left)
    else
      SplitRune(s, start, i, depth, inString, left)
  }

  /** One iteration of the loop on a rune other than a backslash: a comma
      at depth zero closes the current fragment, anything else goes
      through `Step`. */
  function SplitRune(s: seq<char>, start: nat, i: nat, depth: int, inString: bool, left: nat)
    : (r: Outcome<seq<seq<char>>>)
    requires start <= left <= i < |s| && s[i] != '\\'
    requires !Escaped(s, start, i) && Lex(s, Brace, start, i, 0) == Nesting(depth, inString)
    ensures Escaped(s, start, |s|) ==> r == OutOfRange
    ensures !Escaped(s, start, |s|) ==> r == Returned(Cut(s, left, SplitPoints(s, start, i)))
    decreases |s| + 1 - i, 0
  {
    LexSteps(s, Brace, start, i, 0);
    var n := Step(Nesting(depth, inString), s[i], Brace);
    if s[i] == ',' && depth == 0 then
      CutAtComma(s, start, left, i);
      match SplitLoop(s, start, i + 1, n.depth, n.inString, i + 1)
      case OutOfRange => OutOfRange
      case Returned(rest) => Returned([s[left..i]] + rest)
    else
      SplitPointsSkip(s, start, i);
      SplitLoop(s, start, i + 1, n.depth, n.inString, left)
  }

  /** A position that does not separate adds no cut point. */
  lemma SplitPointsSkip(s: seq<char>, start: nat, i: nat)
    requires i < |s| && !SplitsAt(s, start, i)
    ensures SplitPoints(s, start, i) == SplitPoints(s, start, i + 1)
  {
  }

  /** A reached backslash and the rune it skips add no cut point. */
  lemma SplitPointsSkipEscape(s: seq<char>, start: nat, i: nat)
    requires start <= i < |s| && s[i] == '\\' && !Escaped(s, start, i)
    ensures SplitPoints(s, start, i) == SplitPoints(s, start, i + 2)
    ensures i + 2 <= |s| ==>
      !Escaped(s, start, i + 2) && Lex(s, Brace, start, i + 2, 0) == Lex(s, Brace, start, i, 0)
    ensures i + 2 == |s| + 1 ==> Escaped(s, start, |s|)
  {
    LexSkipsEscape(s, Brace, start, i, 0);
    SplitPointsSkip(s, start, i);
    if i + 1 < |s| {
      SplitPointsSkip(s, start, i + 1);
    }
  }

  /** A separating position is the first cut point from there on. */
  lemma SplitPointsTake(s: seq<char>, start: nat, i: nat)
    requires SplitsAt(s, start, i)
    ensures SplitPoints(s, start, i) == [i] + SplitPoints(s, start, i + 1)
  {
  }

  /** A separating comma at `i` splits off `s[left..i]` and leaves the cut
      of the rest. */
  lemma CutAtComma(s: seq<char>, start: nat, left: nat, i: nat)
    requires left <= i && SplitsAt(s, start, i)
    ensures Cut(s, left, SplitPoints(s, start, i))
         == [s[left..i]] + Cut(s, i + 1, SplitPoints(s, start, i + 1))
  {
    SplitPointsTake(s, start, i);
    CutFirst(s, left, i, SplitPoints(s, start, i + 1));
  }

  /** Cutting at a first position `i` splits off `s[lo..i]`. */
  lemma CutFirst(s: seq<char>, lo: nat, i: nat, ps: seq<nat>)
    requires lo <= i < |s| && Ascending(ps, i + 1, |s|)
    ensures Ascending([i] + ps, lo, |s|)
    ensures Cut(s, lo, [i] + ps) == [s[lo..i]] + Cut(s, i + 1, ps)
  {
    assert ([i] + ps)[1..] == ps;
  }

  /** `SplitObjects`: the fragments of `s[start..]` between separating
      commas. A start past the end, or an unpaired backslash at the end,
      makes the final slice panic. */
  function SplitObjects(s: seq<char>, start: nat): (r: Outcome<seq<seq<char>>>)
    ensures r.OutOfRange? <==> start > |s| || Escaped(s, start, |s|)
    ensures r.Returned? ==> r.value == Cut(s, start, SplitPoints(s, start, start))
  {
    if start > |s| then OutOfRange else SplitLoop(s, start, start, 0, false, start)
  }

  /** Joining the cut pieces with the cutting rune gives back the text. */
  lemma {:induction false} JoinCut(s: seq<char>, lo: nat, ps: seq<nat>)
    requires lo <= |s| && Ascending(ps, lo, |s|)
    requires forall j :: 0 <= j < |ps| ==> s[ps[j]] == ','
    ensures Join(Cut(s, lo, ps), ',') == s[lo..]
    decreases |ps|
  {
    if ps != [] {
      var c, rest := ps[0], ps[1..];
      AscendingTail(ps, lo, |s|);
      CommasTail(s, ps);
      JoinCut(s, c + 1, rest);
      assert ps == [c] + rest;
      CutFirst(s, lo, c, rest);
      JoinCons(s[lo..c], Cut(s, c + 1, rest), ',');
      SliceAround(s, lo, c);
    }
  }

  lemma CommasTail(s: seq<char>, ps: seq<nat>)
    requires ps != [] && forall j :: 0 <= j < |ps| ==> ps[j] < |s| && s[ps[j]] == ','
    ensures forall j :: 0 <= j < |ps| - 1 ==> ps[1..][j] < |s| && s[ps[1..][j]] == ','
  {
    forall j | 0 <= j < |ps| - 1 ensures ps[1..][j] < |s| && s[ps[1..][j]] == ',' {
      assert ps[1..][j] == ps[j + 1];
    }
  }

  lemma SliceAround(s: seq<char>, lo: nat, c: nat)
    requires lo <= c < |s| && s[c] == ','
    ensures s[lo..] == s[lo..c] + [','] + s[c + 1..]
  {
    assert s[lo..] == s[lo..c] + s[c..];
    assert s[c..] == [s[c]] + s[c + 1..];
  }

  /** The positions after the first are ascending from just past it. */
  lemma AscendingTail(ps: seq<nat>, lo: nat, hi: nat)
    requires Ascending(ps, lo, hi) && ps != []
    ensures Ascending(ps[1..], ps[0] + 1, hi)
  {
    forall j | 0 <= j < |ps| - 1 ensures ps[0] + 1 <= ps[1..][j] < hi {
      assert ps[1..][j] == ps[j + 1];
    }
  }

  lemma JoinCons(head: seq<char>, tail: seq<seq<char>>, sep: char)
    requires |tail| > 0
    ensures Join([head] + tail, sep) == head + [sep] + Join(tail, sep)
  {
    assert ([head] + tail)[1..] == tail;
  }

  /** The fragments of `SplitObjects` rejoined with commas reproduce
      `s[start..]`; there is one more fragment than separating commas, so
      always at least one. */
  lemma SplitObjectsRejoins(s: seq<char>, start: nat)
    requires SplitObjects(s, start).Returned?
    ensures Join(SplitObjects(s, start).value, ',') == s[start..]
    ensures |SplitObjects(s, start).value| == |SplitPoints(s, start, start)| + 1
  {
    var ps := SplitPoints(s, start, start);
    SplitPointsAre(s, start, start);
    assert forall j :: 0 <= j < |ps| ==> SplitsAt(s, start, ps[j]);
    JoinCut(s, start, ps);
  }

  /** An unescaped comma separates fragments exactly when the brace depth
      before it is zero; whether it lies between quotes does not matter. */
  lemma CommaSplitsIff(s: seq<char>, start: nat, c: nat)
    requires start <= c < |s| && s[c] == ',' && !Escaped(s, start, c)
    ensures c in SplitPoints(s, start, start) <==> Lex(s, Brace, start, c, 0).depth == 0
  {
    SplitPointsAre(s, start, start);
  }

  /** The empty span is one empty fragment. */
  lemma SplitEmpty()
    ensures SplitObjects([], 0) == Returned([[]])
  {
  }
}

=== FILE: values.dfy ===
/** The typed value tree the interpreter builds, and the record invariant
    it keeps. */
module Values {

  /** Go's 64-bit `int` and `int64`. */
  type Int64 = x: int | -0x8000_0000_0000_0000 <= x < 0x8000_0000_0000_0000

  /** A Go `float64`, kept as its IEEE 754 binary64 bit pattern. The model
      does no floating-point arithmetic. */
  datatype Float64 = Float64(bits: bv64)

  /** What the Go code stores into a `map[string]interface{}`: `int64` or
      `int`, `float64`, `string`, `bool`, `nil`, `[]interface{}` and a
      nested map. */
  datatype Value =
    | Int(i: Int64)
    | Float(f: Float64)
    | Str(s: string)
    | Bool(b: bool)
    | Null
    | List(items: seq<Value>)
    | Map(fields: map<string, Value>)

  type Record = map<string, Value>

  /** Values that may appear as list elements. */
  predicate Scalar(v: Value) {
    !v.List? && !v.Map?
  }

  /** The shape the interpreter guarantees: every list is non-empty and
      holds only scalars, and every nested record is well formed. */
  predicate WellFormed(v: Value) {
    match v
    case List(items) => |items| > 0 && forall k :: 0 <= k < |items| ==> Scalar(items[k])
    case Map(fields) => forall name :: name in fields ==> name != [] && WellFormed(fields[name])
    case _ => true
  }

  /** Every field name is non-empty and every field value well formed. */
  predicate WellFormedRecord(r: Record) {
    WellFormed(Map(r))
  }

  /** Storing a well-formed value under a non-empty name keeps a record
      well formed. */
  lemma StoreKeepsWellFormed(r: Record, name: string, v: Value)
    requires WellFormedRecord(r) && name != [] && WellFormed(v)
    ensures WellFormedRecord(r[name := v])
  {
    var m := r[name := v];
    forall k | k in m
      ensures k != [] && WellFormed(m[k])
    {
      if k != name {
        assert k in r;
      }
    }
  }

  lemma EmptyIsWellFormed()
    ensures WellFormedRecord(map[])
  { }
}
